=== FILE: README.md ===
# Coverage diff core, modelled in Dafny

This project models the pure logic of the code-coverage backend's v2 diff
(`v2/diff.py`). The diff looks at one changeset of a push and asks two
questions of the search backend:

- **`changes_on_files`.** Which later changesets of the same push and branch
  moved or edited the changeset's files? The backend is given a boolean query.
  The moves of the returned commits are then grouped by requested filename,
  using a suffix match on the move's old and new names.
- **`coverage_in_push`.** Which lines of those files are covered in the push?
  The backend runs a `scripted_metric` aggregation per filename bucket. It has
  three phases: collect the lines per shard, dedup per shard, then flatten,
  dedup and sort across shards. The buckets are then turned into a dictionary.

Backend answers are inputs to the model. The commit search answer is
`NoResults` or a page of hits. The aggregation answer is a list of buckets.
Two predicates say when an answer is consistent with the query over a
collection of documents: `CommitQuery.Conforms` and `Coverage.BucketsConform`.
The main results are:

- The grouped map's keys are exactly the requested filenames.
- A change list appears under a filename exactly when a move concerning that
  filename carries it.
- The entries are an order-preserving filter of the flattened moves.
- Only admitted changesets contribute. A changeset is admitted when its index
  is strictly greater, and its push and branch are the same.
- The per-file `should` clauses never narrow the set of matching changesets.
  Elasticsearch's default `minimum_should_match` is 0 when `must` clauses are
  present. Through scoring they do steer which 100 changesets are returned.
- The reduced covered lines are strictly ascending.
- The reduced lines are exactly the union of the documents' lines. The result
  does not depend on how the documents are split across shards.

Modules: `Paths` (suffix test), `Seqs` (flatten, Java's `distinct`, `sorted`),
`Commits` (documents and responses), `CommitQuery` (bool query semantics),
`Moves` (grouping), `Coverage` (aggregation and bucket dictionary).

Two behaviours of the code worth noting:

- **Absent result.** The model returns `None` only for `NoResults`. A falsy
  response is not modelled (see Left out). A response with zero hits gives a
  map of empty lists. Whether the backend raises `NoResults` for zero hits is
  decided in `v2/base.py`, which is not part of this model.
- **`coverage_diff`'s return value.** Its docstring (`v2/diff.py` lines 119-121)
  says it lists the coverage changes of a diff, but it returns `{}`. It does not
  return an assembled per-file diff.

## Model

| member | source | states |
|---|---|---|
| Moves.ChangesOnFiles | src/shipit_code_coverage_backend/shipit_code_coverage_backend/v2/diff.py:99-115 | the result is `None` exactly when the search raised `NoResults`; otherwise its keys are exactly the requested filenames |
| Moves.GroupByFile | src/shipit_code_coverage_backend/shipit_code_coverage_backend/v2/diff.py:107-115 | the dictionary's keys are exactly the requested filenames, repeats collapsed |
| Moves.MatchingChanges | src/shipit_code_coverage_backend/shipit_code_coverage_backend/v2/diff.py:108-113 | no contract of its own: the inner list comprehension for one filename; `Moves.MatchingIsFlatFilter` and `Moves.GroupedMembership` state what it computes |
| Moves.GroupedEntries | src/shipit_code_coverage_backend/shipit_code_coverage_backend/v2/diff.py:104-115 | each requested filename maps to the `changes` of the moves, across all hits, whose new or old name ends with it; a filename with no such move maps to an empty list |
| Moves.GroupedMembership | src/shipit_code_coverage_backend/shipit_code_coverage_backend/v2/diff.py:108-112 | a change list appears under `f` if and only if some move of some hit has a new or old name ending with `f` and carries that change list |
| Moves.Touching | src/shipit_code_coverage_backend/shipit_code_coverage_backend/v2/diff.py:111-112 | the filtered moves are exactly those concerning the filename; each is kept as often as it occurs, so a move whose two names both match is kept once |
| Moves.MatchingIsFlatFilter | src/shipit_code_coverage_backend/shipit_code_coverage_backend/v2/diff.py:108-112 | the nested comprehension (hits, then moves) equals a single filter over all moves flattened hit by hit |
| Moves.MatchingConcat | src/shipit_code_coverage_backend/shipit_code_coverage_backend/v2/diff.py:109-111 | entries of earlier hits come before entries of later hits |
| Moves.TouchingSelectsInOrder | src/shipit_code_coverage_backend/shipit_code_coverage_backend/v2/diff.py:109-112 | the k-th entry is the move at the k-th ascending position whose move matches; no move is reordered or repeated |
| Moves.Positions | src/shipit_code_coverage_backend/shipit_code_coverage_backend/v2/diff.py:111-112 | the matching positions are in range, strictly ascending, and contain a position exactly when that move matches |
| Moves.GroupedChangesAdmitted | src/shipit_code_coverage_backend/shipit_code_coverage_backend/v2/diff.py:70-115 | given a consistent backend answer, every grouped change list comes from a matching move of a changeset with a greater index in the same push and branch |
| Moves.SuffixCollectsBoth | src/shipit_code_coverage_backend/shipit_code_coverage_backend/v2/diff.py:112 | moves to two different directories with the same trailing name both land under that name, in hit order |
| CommitQuery.CommitsAbove | src/shipit_code_coverage_backend/shipit_code_coverage_backend/v2/diff.py:70-98 | no contract of its own: the bool query with the per-file `should` clauses and the index, push and branch `must` clauses; `CommitQuery.QueryAdmitsExactly` states what it matches |
| CommitQuery.QueryAdmitsExactly | src/shipit_code_coverage_backend/shipit_code_coverage_backend/v2/diff.py:70-90 | the query matches a changeset if and only if its index is greater than `revision_index`, its push id equals `push` and its branch equals `branch_name` |
| CommitQuery.ShouldClausesDoNotFilter | src/shipit_code_coverage_backend/shipit_code_coverage_backend/v2/diff.py:75-78 | the set of admitted changesets is the same whichever files are requested |
| CommitQuery.ShouldAloneWouldFilter | src/shipit_code_coverage_backend/shipit_code_coverage_backend/v2/diff.py:75-78 | without the `must` clauses, the `should` clauses would reject a changeset touching none of the requested files |
| CommitQuery.MovesQueryFor | src/shipit_code_coverage_backend/shipit_code_coverage_backend/v2/diff.py:132-138 | the query built from a changeset's own files, push, index and branch admits exactly the later changesets of that push and branch |
| CommitQuery.OwnChangesetExcluded | src/shipit_code_coverage_backend/shipit_code_coverage_backend/v2/diff.py:136-138 | the inspected changeset is never among its own candidates |
| Seqs.Distinct | src/shipit_code_coverage_backend/shipit_code_coverage_backend/v2/diff.py:46-49 | Java's `distinct()`: the result has the same elements as the input and no duplicates |
| Seqs.Sort | src/shipit_code_coverage_backend/shipit_code_coverage_backend/v2/diff.py:49 | Java's `sorted()` on integers: the result is ascending and a permutation of the input |
| Coverage.MapPhase | src/shipit_code_coverage_backend/shipit_code_coverage_backend/v2/diff.py:40-43 | the per-shard collected list holds exactly the lines that some document of the shard covers |
| Coverage.CombinePhase | src/shipit_code_coverage_backend/shipit_code_coverage_backend/v2/diff.py:45-46 | the per-shard state has no duplicates and the same lines as the collected list |
| Coverage.ReducePhase | src/shipit_code_coverage_backend/shipit_code_coverage_backend/v2/diff.py:48-49 | the reduced list is strictly ascending and holds exactly the lines found in some shard state |
| Coverage.ScriptedMetric | src/shipit_code_coverage_backend/shipit_code_coverage_backend/v2/diff.py:38-51 | the three phases together give a strictly ascending list of exactly the lines covered by some document on some shard |
| Coverage.ShardSplitIrrelevant | src/shipit_code_coverage_backend/shipit_code_coverage_backend/v2/diff.py:42-49 | any two distributions of the same documents over shards reduce to the same list |
| Coverage.LocalMergeAgrees | src/shipit_code_coverage_backend/shipit_code_coverage_backend/v2/diff.py:40-49 | the three-phase reduction equals one dedup-and-sort over all documents' lines |
| Coverage.TwoShardUnion | src/shipit_code_coverage_backend/shipit_code_coverage_backend/v2/diff.py:40-49 | shards covering {1,2,5} and {2,5,9} reduce to [1,2,5,9] |
| Coverage.BucketDocsLines | src/shipit_code_coverage_backend/shipit_code_coverage_backend/v2/diff.py:23-28 | the documents fed to a bucket on a shard cover a line exactly when a document of that shard with the bucket's filename and the requested push covers it |
| Coverage.BucketFor | src/shipit_code_coverage_backend/shipit_code_coverage_backend/v2/diff.py:23-53 | a bucket's value is strictly ascending and holds exactly the lines covered by documents with its filename in the push |
| Coverage.CoverageInPush | src/shipit_code_coverage_backend/shipit_code_coverage_backend/v2/diff.py:58-61 | the dictionary has a key exactly for each bucket key, and a key maps to the value of the last bucket carrying it |
| Coverage.CoverageInPushSize | src/shipit_code_coverage_backend/shipit_code_coverage_backend/v2/diff.py:58-61 | with distinct bucket keys the dictionary has one entry per bucket |
| Coverage.CoverageInPushSpec | src/shipit_code_coverage_backend/shipit_code_coverage_backend/v2/diff.py:23-61 | over a consistent bucket answer, the keys are a subset of `files`, there is one entry per bucket, and each value is strictly ascending with exactly the file's covered lines in the push |
| Coverage.AggregateBucketsKeys | src/shipit_code_coverage_backend/shipit_code_coverage_backend/v2/diff.py:23-36 | the unlimited backend returns a bucket for exactly the requested files that have documents in the push |
| Coverage.AggregateBucketsDistinct | src/shipit_code_coverage_backend/shipit_code_coverage_backend/v2/diff.py:34-36 | bucket keys are distinct: one bucket per distinct requested file that has documents in the push, even when a file is requested twice |
| Coverage.AggregateCoverageKeys | src/shipit_code_coverage_backend/shipit_code_coverage_backend/v2/diff.py:23-61 | the unlimited backend's answer is consistent, also for repeated requested files, and the resulting map's keys are exactly the requested files with documents in the push; requested files with no document in the push are absent |
| Coverage.UncoveredFileMapsToEmpty | src/shipit_code_coverage_backend/shipit_code_coverage_backend/v2/diff.py:34-61 | a requested file whose documents in the push cover no line still has a bucket, so it maps to [] |
| Paths.EndsWithIffPrefixed | src/shipit_code_coverage_backend/shipit_code_coverage_backend/v2/diff.py:112 | a name ends with a filename exactly when it is that filename with something in front |
| Paths.EndsWithTransitive | src/shipit_code_coverage_backend/shipit_code_coverage_backend/v2/diff.py:112 | a move matching a longer path also matches every suffix of that path |
| Paths.EverythingEndsWithEmpty | src/shipit_code_coverage_backend/shipit_code_coverage_backend/v2/diff.py:112 | every name ends with the empty string |
| Moves.TouchingAll | src/shipit_code_coverage_backend/shipit_code_coverage_backend/v2/diff.py:111-112 | when every move concerns the filename, the filter keeps all moves, in order |
| Moves.EmptyFilenameCollectsAll | src/shipit_code_coverage_backend/shipit_code_coverage_backend/v2/diff.py:108-115 | an empty requested filename collects the changes of every move of every hit, in order |

## Left out

- Network calls: `active_data.search` and `active_data.get_changeset` are not modelled. Their answers are parameters: a `CommitResponse`, a bucket list, and a changeset document.
- Backend result ordering: the `'size': 100` page cap appears only as a bound in `CommitQuery.Conforms`. Relevance scoring and hit order are the backend's choice, so the model takes the hit order as given.
- Backend result limits: `size: 0` and `timeout=100` are backend behaviour and not modelled. So is the terms aggregation's default bucket limit. `Coverage.AggregateBuckets` returns every bucket. The lemmas over `BucketsConform` hold for any subset of exact buckets; truncation inside a bucket is covered by the `Coverage.CoverageInPushSpec` line below.
- `ActiveDataCoverage.base_query`: not part of this model. It is taken to conjoin the two given filters, with nothing added.
- Text matching: `match` on `push.id`, `branch.name` and `changeset.files` is taken as exact comparison. Text analysis is not modelled.
- Painless and Java: only their list meaning is modelled. The `doc[...]` values are a list of integers per document. `list(map(int, ...))` is the identity on them.
- `coverage_diff`: not modelled beyond its argument wiring (`CommitQuery.MovesQueryFor`). It prints, logs and returns `{}`. Printing and logging are I/O, and the empty return value carries no logic.
- The `isinstance` assertions: replaced by the Dafny types `seq<string>` and `int`.
- Empty search response: a falsy response to `if others:` would carry no `hits` and is not modelled. A response is either `NoResults` or a list of hits.
- Coverage.CoverageInPushSpec: bucket values are exact only when every shard reports the bucket. The `files` terms aggregation also truncates per shard: each shard sends only its top `shard_size` terms (by default 25 for size 10). With more than 25 distinct requested files having documents on one shard, a returned bucket can miss that shard's documents and so miss covered lines. `BucketsConform` assumes every returned bucket is exact, and the per-shard truncation is not modelled.
- Error paths: `coverage_in_push` calls the search unguarded (line 56), so `NoResults` propagates out of it. An answer lacking `aggregations` or `buckets` raises `KeyError` (line 60), and so does a hit lacking `changeset.moves` (line 111). The model takes well-formed bucket lists and well-formed hits, so these exceptions are not modelled.
- CommitQuery.Conforms: does not require the returned hits to be distinct documents.

=== FILE: commit_query.dfy ===
/** The boolean query `changes_on_files` sends, and which changesets it admits. */
module CommitQuery {
  import opened Commits

  /** The document fields the query mentions. */
  datatype Field = Index | PushId | BranchName | ChangesetFiles

  /** The leaf clauses used: a strict `range` bound and `match` on a number or on text. */
  datatype Clause =
    | RangeGt(field: Field, bound: int)
    | MatchInt(field: Field, value: int)
    | MatchText(field: Field, text: string)

  /** A `bool` query with `should` and `must` lists and no `minimum_should_match`. */
  datatype BoolQuery = BoolQuery(should: seq<Clause>, must: seq<Clause>)

  /** Whether one leaf clause holds of a changeset document. `match` is taken as an exact
      comparison (exact membership for the file list); numeric clauses on a text field never hold. */
  predicate ClauseHolds(c: Commit, cl: Clause)
  {
    match cl
    case RangeGt(f, b) =>
      (f == Index && c.index > b) || (f == PushId && c.pushId > b)
    case MatchInt(f, v) =>
      (f == Index && c.index == v) || (f == PushId && c.pushId == v)
    case MatchText(f, t) =>
      (f == BranchName && c.branchName == t) || (f == ChangesetFiles && t in c.files)
  }

  /** How many of the clauses hold. */
  function CountHolding(c: Commit, cls: seq<Clause>): nat
  {
    if |cls| == 0 then 0
    else (if ClauseHolds(c, cls[0]) then 1 else 0) + CountHolding(c, cls[1..])
  }

  /** Elasticsearch's default `minimum_should_match`: one when the query has `should` clauses
      and no `must` clause, zero otherwise. */
  function MinimumShouldMatch(q: BoolQuery): nat
  {
    if |q.must| == 0 && |q.should| > 0 then 1 else 0
  }

  /** A document matches when every `must` clause holds and enough `should` clauses do. */
  predicate Matches(c: Commit, q: BoolQuery)
  {
    && (forall i :: 0 <= i < |q.must| ==> ClauseHolds(c, q.must[i]))
    && CountHolding(c, q.should) >= MinimumShouldMatch(q)
  }

  /** The query of `changes_on_files`: one `should` match per requested file, and `must`
      clauses for a strictly later index, the same push and the same branch. */
  function CommitsAbove(files: seq<string>, push: int, revisionIndex: int, branchName: string): BoolQuery
  {
    BoolQuery(
      seq(|files|, i requires 0 <= i < |files| => MatchText(ChangesetFiles, files[i])),
      [RangeGt(Index, revisionIndex), MatchInt(PushId, push), MatchText(BranchName, branchName)])
  }

  /** The admission condition stated directly: later in the same push, on the same branch. */
  predicate Admitted(c: Commit, push: int, revisionIndex: int, branchName: string)
  {
    c.index > revisionIndex && c.pushId == push && c.branchName == branchName
  }

  /** The query admits a changeset exactly when its `must` conditions hold; the per-file
      `should` clauses never narrow the result. */
  lemma QueryAdmitsExactly(c: Commit, files: seq<string>, push: int, revisionIndex: int, branchName: string)
    ensures Matches(c, CommitsAbove(files, push, revisionIndex, branchName))
            <==> Admitted(c, push, revisionIndex, branchName)
  {
    var q := CommitsAbove(files, push, revisionIndex, branchName);
    assert MinimumShouldMatch(q) == 0;
    if Admitted(c, push, revisionIndex, branchName) {
      assert forall i :: 0 <= i < |q.must| ==> ClauseHolds(c, q.must[i]);
    }
    if Matches(c, q) {
      assert ClauseHolds(c, q.must[0]) && ClauseHolds(c, q.must[1]) && ClauseHolds(c, q.must[2]);
    }
  }

  /** Consequently, whatever files are requested, the same changesets are admitted. */
  lemma ShouldClausesDoNotFilter(c: Commit, files1: seq<string>, files2: seq<string>,
                                 push: int, revisionIndex: int, branchName: string)
    ensures Matches(c, CommitsAbove(files1, push, revisionIndex, branchName))
            == Matches(c, CommitsAbove(files2, push, revisionIndex, branchName))
  {
    QueryAdmitsExactly(c, files1, push, revisionIndex, branchName);
    QueryAdmitsExactly(c, files2, push, revisionIndex, branchName);
  }

  /** Had the `should` clauses stood alone, they would have required one requested file:
      a changeset touching none of them is rejected by a query without `must` clauses. */
  lemma ShouldAloneWouldFilter(c: Commit, files: seq<string>)
    requires |files| > 0
    requires forall i :: 0 <= i < |files| ==> files[i] !in c.files
    ensures !Matches(c, BoolQuery(CommitsAbove(files, 0, 0, "").should, []))
  {
    var q := BoolQuery(CommitsAbove(files, 0, 0, "").should, []);
    NoneHolding(c, q.should);
  }

  /** When no clause holds, none is counted. */
  lemma {:induction false} NoneHolding(c: Commit, cls: seq<Clause>)
    requires forall i :: 0 <= i < |cls| ==> !ClauseHolds(c, cls[i])
    ensures CountHolding(c, cls) == 0
  {
    if |cls| > 0 {
      NoneHolding(c, cls[1..]);
    }
  }

  /** A backend answer consistent with the query over the collection `corpus`: at most one page
      of hits, each the projected source of some changeset the query matches. */
  ghost predicate Conforms(response: CommitResponse, corpus: seq<Commit>, q: BoolQuery)
  {
    response.Hits? ==>
      && |response.hits| <= PageSize
      && forall h :: h in response.hits ==> exists c :: c in corpus && Matches(c, q) && Source(c) == h
  }

  /** The query `coverage_diff` issues for a changeset: its own files, push, index and branch. */
  function MovesQueryFor(rev: Commit): (q: BoolQuery)
    ensures forall c :: Matches(c, q) <==> Admitted(c, rev.pushId, rev.index, rev.branchName)
  {
    var q := CommitsAbove(rev.files, rev.pushId, rev.index, rev.branchName);
    forall c ensures Matches(c, q) <==> Admitted(c, rev.pushId, rev.index, rev.branchName) {
      QueryAdmitsExactly(c, rev.files, rev.pushId, rev.index, rev.branchName);
    }
    q
  }

  /** The changeset under inspection is never among the candidates it looks up. */
  lemma OwnChangesetExcluded(rev: Commit)
    ensures !Matches(rev, MovesQueryFor(rev))
  {
  }
}

=== FILE: commits.dfy ===
/** The commit-history documents the move scan reads, and the search backend's answer. */
module Commits {

  /** The line-level change descriptors of one move, carried through unexamined. */
  type Changes = seq<string>

  /** One rename or edit recorded on a changeset: `old.name`, `new.name` and `changes`. */
  datatype Move = Move(oldName: string, newName: string, changes: Changes)

  /** A changeset document of the commit-history index: its position in the push (`index`),
      `push.id`, `branch.name`, the files it touches, its moves and its description. */
  datatype Commit = Commit(
    index: int,
    pushId: int,
    branchName: string,
    files: seq<string>,
    moves: seq<Move>,
    description: string)

  /** What a hit carries once `_source` is limited to `changeset.moves` and `changeset.description`. */
  datatype Hit = Hit(moves: seq<Move>, description: string)

  function Source(c: Commit): Hit
  {
    Hit(c.moves, c.description)
  }

  /** The search backend's answer: the `NoResults` condition, or the page of hits it returned. */
  datatype CommitResponse = NoResults | Hits(hits: seq<Hit>)

  /** The page size the query asks for; no further pages are requested. */
  const PageSize: nat := 100
}

=== FILE: coverage.dfy ===
/** `coverage_in_push`: the covered-line aggregation and its conversion into a dictionary. */
module Coverage {
  import opened Seqs

  /** A coverage document: the file it reports on, its push, and its covered line numbers. */
  datatype CoverageDoc = CoverageDoc(filename: string, push: int, covered: seq<int>)

  /** One bucket of the `files` terms aggregation: its filename key and the reduced `covered` value. */
  datatype Bucket = Bucket(key: string, covered: seq<int>)

  /** Line `x` is covered by one of the documents `docs`. */
  predicate CoveredBy(x: int, docs: seq<seq<int>>)
  {
    exists j :: 0 <= j < |docs| && x in docs[j]
  }

  /** Line `x` is covered by a document on one of the shards. */
  predicate CoveredOnShards(x: int, shards: seq<seq<seq<int>>>)
  {
    exists i, j :: 0 <= i < |shards| && 0 <= j < |shards[i]| && x in shards[i][j]
  }

  /** Map phase, on one shard: starting from an empty list, append each document's covered lines. */
  function MapPhase(docs: seq<seq<int>>): (collected: seq<int>)
    ensures forall x :: x in collected <==> CoveredBy(x, docs)
  {
    forall x ensures x in Flatten(docs) <==> CoveredBy(x, docs) {
      InFlatten(x, docs);
    }
    Flatten(docs)
  }

  /** Combine phase, on one shard: drop repeated lines, keeping first occurrences. */
  function CombinePhase(collected: seq<int>): (state: seq<int>)
    ensures NoDuplicates(state)
    ensures forall x :: x in state <==> x in collected
  {
    Distinct(collected)
  }

  /** Reduce phase, across shards: flatten the shard states, drop repeats, sort. */
  function ReducePhase(states: seq<seq<int>>): (r: seq<int>)
    ensures StrictlyAscending(r)
    ensures forall x :: x in r <==> CoveredBy(x, states)
  {
    var d := Distinct(Flatten(states));
    SortDistinctAscending(d);
    forall x ensures x in Flatten(states) <==> CoveredBy(x, states) {
      InFlatten(x, states);
    }
    Sort(d)
  }

  /** The whole `scripted_metric` for one bucket, given the bucket's documents (as covered-line
      lists) on each shard. The result is strictly ascending and holds exactly the lines some
      document covers. */
  function ScriptedMetric(shards: seq<seq<seq<int>>>): (r: seq<int>)
    ensures StrictlyAscending(r)
    ensures forall x :: x in r <==> CoveredOnShards(x, shards)
  {
    var states := seq(|shards|, i requires 0 <= i < |shards| => CombinePhase(MapPhase(shards[i])));
    forall x ensures CoveredBy(x, states) <==> CoveredOnShards(x, shards) {
      if CoveredBy(x, states) {
        var i :| 0 <= i < |states| && x in states[i];
        assert CoveredBy(x, shards[i]);
      }
      if CoveredOnShards(x, shards) {
        var i, j :| 0 <= i < |shards| && 0 <= j < |shards[i]| && x in shards[i][j];
        assert CoveredBy(x, shards[i]);
        assert x in states[i];
      }
    }
    ReducePhase(states)
  }

  /** A line is covered by some document of some shard exactly when it is covered by some
      document of the flattened document list. */
  lemma CoveredSomewhere(x: int, shards: seq<seq<seq<int>>>)
    ensures CoveredOnShards(x, shards) <==> exists d :: d in Flatten(shards) && x in d
  {
    if CoveredOnShards(x, shards) {
      var i, j :| 0 <= i < |shards| && 0 <= j < |shards[i]| && x in shards[i][j];
      assert shards[i][j] in shards[i];
      InFlatten(shards[i][j], shards);
    }
    if exists d :: d in Flatten(shards) && x in d {
      var d :| d in Flatten(shards) && x in d;
      InFlatten(d, shards);
      var i :| 0 <= i < |shards| && d in shards[i];
      var j :| 0 <= j < |shards[i]| && shards[i][j] == d;
    }
  }

  /** The reduced result does not depend on how the documents are spread over shards, nor on
      their order: any two splits of the same documents reduce to the same list. */
  lemma ShardSplitIrrelevant(s1: seq<seq<seq<int>>>, s2: seq<seq<seq<int>>>)
    requires multiset(Flatten(s1)) == multiset(Flatten(s2))
    ensures ScriptedMetric(s1) == ScriptedMetric(s2)
  {
    forall x
      ensures x in ScriptedMetric(s1) <==> x in ScriptedMetric(s2)
    {
      CoveredSomewhere(x, s1);
      CoveredSomewhere(x, s2);
      forall d ensures d in Flatten(s1) <==> d in Flatten(s2) {
        assert d in Flatten(s1) <==> d in multiset(Flatten(s1));
        assert d in Flatten(s2) <==> d in multiset(Flatten(s2));
      }
    }
    AscendingUnique(ScriptedMetric(s1), ScriptedMetric(s2));
  }

  /** The three-phase reduction agrees with the local merge a client without scripted
      aggregations would do: one pass over all documents, dropping repeats, then sorting. */
  lemma LocalMergeAgrees(shards: seq<seq<seq<int>>>)
    ensures ScriptedMetric(shards) == Sort(Distinct(Flatten(Flatten(shards))))
  {
    var local := Sort(Distinct(Flatten(Flatten(shards))));
    SortDistinctAscending(Distinct(Flatten(Flatten(shards))));
    forall x
      ensures x in ScriptedMetric(shards) <==> x in local
    {
      CoveredSomewhere(x, shards);
      InFlatten(x, Flatten(shards));
    }
    AscendingUnique(ScriptedMetric(shards), local);
  }

  /** Document `d` falls in the bucket for `key` of push `push`. */
  predicate InBucket(d: CoverageDoc, key: string, push: int)
  {
    d.filename == key && d.push == push
  }

  /** Line `x` is covered by a document on one of the shards that falls in the bucket for `key`. */
  predicate BucketCovers(x: int, shards: seq<seq<CoverageDoc>>, key: string, push: int)
  {
    exists i, j :: 0 <= i < |shards| && 0 <= j < |shards[i]|
                   && InBucket(shards[i][j], key, push) && x in shards[i][j].covered
  }

  /** The covered-line lists, in order, of the documents on one shard that fall in the bucket
      for `key`: the filename is the key and the push is the requested one. */
  function BucketDocs(shard: seq<CoverageDoc>, key: string, push: int): seq<seq<int>>
  {
    if |shard| == 0 then []
    else if InBucket(shard[0], key, push) then [shard[0].covered] + BucketDocs(shard[1..], key, push)
    else BucketDocs(shard[1..], key, push)
  }

  /** A line is covered by the selected documents exactly when a document of the shard in the
      bucket covers it. */
  lemma {:induction false} BucketDocsLines(x: int, shard: seq<CoverageDoc>, key: string, push: int)
    ensures CoveredBy(x, BucketDocs(shard, key, push)) <==>
            exists j :: 0 <= j < |shard| && InBucket(shard[j], key, push) && x in shard[j].covered
  {
    if |shard| > 0 {
      BucketDocsLines(x, shard[1..], key, push);
      var rest := BucketDocs(shard[1..], key, push);
      var docs := BucketDocs(shard, key, push);
      if exists j :: 0 <= j < |shard| && InBucket(shard[j], key, push) && x in shard[j].covered {
        var j :| 0 <= j < |shard| && InBucket(shard[j], key, push) && x in shard[j].covered;
        if j > 0 {
          assert shard[1..][j - 1] == shard[j];
          var k :| 0 <= k < |rest| && x in rest[k];
          if InBucket(shard[0], key, push) {
            assert docs[k + 1] == rest[k];
          }
        } else {
          assert x in docs[0];
        }
      }
      if CoveredBy(x, docs) {
        var k :| 0 <= k < |docs| && x in docs[k];
        if InBucket(shard[0], key, push) && k == 0 {
          assert x in shard[0].covered;
        } else {
          var k' := if InBucket(shard[0], key, push) then k - 1 else k;
          assert x in rest[k'];
          var j :| 0 <= j < |shard[1..]| && InBucket(shard[1..][j], key, push) && x in shard[1..][j].covered;
          assert shard[j + 1] == shard[1..][j];
        }
      }
    }
  }

  /** Whether a document on some shard belongs to the bucket for `key`. */
  predicate HasDocs(shards: seq<seq<CoverageDoc>>, key: string, push: int)
  {
    exists i, j :: 0 <= i < |shards| && 0 <= j < |shards[i]| && InBucket(shards[i][j], key, push)
  }

  /** The bucket the backend computes for `key`: the scripted metric over the bucket's
      documents on every shard, holding exactly the lines those documents cover. */
  function BucketFor(shards: seq<seq<CoverageDoc>>, key: string, push: int): (b: Bucket)
    ensures b.key == key
    ensures StrictlyAscending(b.covered)
    ensures forall x :: x in b.covered <==> BucketCovers(x, shards, key, push)
  {
    var perShard := seq(|shards|, i requires 0 <= i < |shards| => BucketDocs(shards[i], key, push));
    forall x ensures CoveredOnShards(x, perShard) <==> BucketCovers(x, shards, key, push) {
      if CoveredOnShards(x, perShard) {
        var i, j :| 0 <= i < |perShard| && 0 <= j < |perShard[i]| && x in perShard[i][j];
        assert CoveredBy(x, perShard[i]);
        BucketDocsLines(x, shards[i], key, push);
      }
      if BucketCovers(x, shards, key, push) {
        var i, j :| 0 <= i < |shards| && 0 <= j < |shards[i]|
                    && InBucket(shards[i][j], key, push) && x in shards[i][j].covered;
        BucketDocsLines(x, shards[i], key, push);
        assert CoveredBy(x, perShard[i]);
      }
    }
    Bucket(key, ScriptedMetric(perShard))
  }

  /** Some bucket has key `key`. */
  predicate HasKey(buckets: seq<Bucket>, key: string)
  {
    exists k :: 0 <= k < |buckets| && buckets[k].key == key
  }

  /** No key occurs in two buckets. */
  predicate DistinctKeys(buckets: seq<Bucket>)
  {
    forall k, l :: 0 <= k < l < |buckets| ==> buckets[k].key != buckets[l].key
  }

  /** A bucket answer consistent with the query: each bucket's key is a requested file with
      documents in the push, its value is what the aggregation computes for it, and no key repeats. */
  predicate BucketsConform(buckets: seq<Bucket>, shards: seq<seq<CoverageDoc>>, files: seq<string>, push: int)
  {
    && (forall k :: 0 <= k < |buckets| ==>
          && buckets[k].key in files
          && HasDocs(shards, buckets[k].key, push)
          && buckets[k] == BucketFor(shards, buckets[k].key, push))
    && DistinctKeys(buckets)
  }

  /** No bucket after the `k`-th has the same key. */
  predicate LastWithKey(buckets: seq<Bucket>, k: int)
    requires 0 <= k < |buckets|
  {
    forall l :: k < l < |buckets| ==> buckets[l].key != buckets[k].key
  }

  /** The dictionary comprehension over the returned buckets, `key` to `covered` value; a later
      bucket with the same key overwrites an earlier one. */
  function CoverageInPush(buckets: seq<Bucket>): (m: map<string, seq<int>>)
    ensures forall key :: key in m <==> HasKey(buckets, key)
    ensures forall k :: 0 <= k < |buckets| && LastWithKey(buckets, k)
              ==> buckets[k].key in m && m[buckets[k].key] == buckets[k].covered
  {
    if |buckets| == 0 then map[]
    else
      var init := buckets[..|buckets| - 1];
      var last := buckets[|buckets| - 1];
      var m := CoverageInPush(init);
      var m' := m[last.key := last.covered];
      HasKeyDropLast(buckets);
      LastWithKeyDropLast(buckets);
      m'
  }

  /** The keys of a bucket list are those of all but its last bucket, plus the last key. */
  lemma HasKeyDropLast(buckets: seq<Bucket>)
    requires |buckets| > 0
    ensures forall key :: HasKey(buckets, key) <==>
              HasKey(buckets[..|buckets| - 1], key) || key == buckets[|buckets| - 1].key
  {
    var init := buckets[..|buckets| - 1];
    forall key ensures HasKey(buckets, key) <==> HasKey(init, key) || key == buckets[|buckets| - 1].key {
      if HasKey(init, key) {
        var k :| 0 <= k < |init| && init[k].key == key;
        assert buckets[k].key == key;
      }
      if HasKey(buckets, key) && key != buckets[|buckets| - 1].key {
        var k :| 0 <= k < |buckets| && buckets[k].key == key;
        assert init[k].key == key;
      }
    }
  }

  /** A bucket that is last with its key stays so once the final bucket is dropped. */
  lemma LastWithKeyDropLast(buckets: seq<Bucket>)
    requires |buckets| > 0
    ensures forall k :: 0 <= k < |buckets| - 1 && LastWithKey(buckets, k) ==>
              LastWithKey(buckets[..|buckets| - 1], k) && buckets[k].key != buckets[|buckets| - 1].key
  {
  }

  /** With distinct keys, the coverage map has exactly one entry per bucket. */
  lemma {:induction false} CoverageInPushSize(buckets: seq<Bucket>)
    requires DistinctKeys(buckets)
    ensures |CoverageInPush(buckets)| == |buckets|
  {
    if |buckets| > 0 {
      var init := buckets[..|buckets| - 1];
      var last := buckets[|buckets| - 1];
      assert DistinctKeys(init);
      CoverageInPushSize(init);
      assert !HasKey(init, last.key);
      assert CoverageInPush(buckets) == CoverageInPush(init)[last.key := last.covered];
    }
  }

  /** Over a consistent bucket answer, the coverage map has one entry per bucket, only for
      requested files, each a strictly ascending list of exactly the lines that the file's
      documents in the push cover. */
  lemma CoverageInPushSpec(buckets: seq<Bucket>, shards: seq<seq<CoverageDoc>>, files: seq<string>, push: int)
    requires BucketsConform(buckets, shards, files, push)
    ensures CoverageInPush(buckets).Keys <= Elems(files)
    ensures |CoverageInPush(buckets)| == |buckets|
    ensures forall f :: f in CoverageInPush(buckets) ==>
              && StrictlyAscending(CoverageInPush(buckets)[f])
              && forall x :: x in CoverageInPush(buckets)[f] <==> BucketCovers(x, shards, f, push)
  {
    var m := CoverageInPush(buckets);
    CoverageInPushSize(buckets);
    forall f | f in m
      ensures f in files
      ensures m[f] == BucketFor(shards, f, push).covered
    {
      var k :| 0 <= k < |buckets| && buckets[k].key == f;
      assert m[buckets[k].key] == buckets[k].covered;
    }
  }

  /** The buckets a backend with no bucket limit returns: one per distinct requested file that has
      documents in the push (a terms aggregation has one bucket per term), in an order of the
      model's choosing (the dictionary does not depend on it). */
  function AggregateBuckets(shards: seq<seq<CoverageDoc>>, files: seq<string>, push: int): (buckets: seq<Bucket>)
    ensures forall k :: 0 <= k < |buckets| ==>
              buckets[k].key in files && HasDocs(shards, buckets[k].key, push)
              && buckets[k] == BucketFor(shards, buckets[k].key, push)
  {
    if |files| == 0 then []
    else
      var rest := AggregateBuckets(shards, files[1..], push);
      var f := files[0];
      assert forall g :: g in files[1..] ==> g in files;
      if HasDocs(shards, f, push) && f !in files[1..] then
        var buckets := [BucketFor(shards, f, push)] + rest;
        assert forall k :: 0 < k < |buckets| ==> buckets[k] == rest[k - 1];
        buckets
      else rest
  }

  /** The full-backend answer has a bucket for exactly the requested files with documents in
      the push. */
  lemma {:induction false} AggregateBucketsKeys(shards: seq<seq<CoverageDoc>>, files: seq<string>, push: int)
    ensures forall f :: HasKey(AggregateBuckets(shards, files, push), f) <==> f in files && HasDocs(shards, f, push)
  {
    if |files| > 0 {
      AggregateBucketsKeys(shards, files[1..], push);
      var rest := AggregateBuckets(shards, files[1..], push);
      var f := files[0];
      assert forall g :: g in files <==> g == f || g in files[1..];
      if HasDocs(shards, f, push) && f !in files[1..] {
        HasKeyCons(BucketFor(shards, f, push), rest);
      }
    }
  }

  /** The keys of a bucket list with one bucket in front: that bucket's key and the rest's. */
  lemma HasKeyCons(b: Bucket, rest: seq<Bucket>)
    ensures forall g :: HasKey([b] + rest, g) <==> g == b.key || HasKey(rest, g)
  {
    var bs := [b] + rest;
    forall g ensures HasKey(bs, g) <==> g == b.key || HasKey(rest, g) {
      if HasKey(rest, g) {
        var k :| 0 <= k < |rest| && rest[k].key == g;
        assert bs[k + 1].key == g;
      }
      if HasKey(bs, g) && g != b.key {
        var k :| 0 <= k < |bs| && bs[k].key == g;
        assert rest[k - 1].key == g;
      }
      assert bs[0].key == b.key;
    }
  }

  /** When the requested files are distinct, so are the full-backend answer's keys. */
  lemma {:induction false} AggregateBucketsDistinct(shards: seq<seq<CoverageDoc>>, files: seq<string>, push: int)
    ensures DistinctKeys(AggregateBuckets(shards, files, push))
  {
    if |files| > 0 {
      AggregateBucketsDistinct(shards, files[1..], push);
      AggregateBucketsKeys(shards, files[1..], push);
      var rest := AggregateBuckets(shards, files[1..], push);
      var f := files[0];
      if HasDocs(shards, f, push) && f !in files[1..] {
        DistinctKeysCons(BucketFor(shards, f, push), rest);
      }
    }
  }

  /** Prepending a bucket with a fresh key keeps the keys distinct. */
  lemma DistinctKeysCons(b: Bucket, rest: seq<Bucket>)
    requires DistinctKeys(rest) && !HasKey(rest, b.key)
    ensures DistinctKeys([b] + rest)
  {
    var bs := [b] + rest;
    forall k, l | 0 <= k < l < |bs| ensures bs[k].key != bs[l].key {
      assert bs[l] == rest[l - 1];
      if k > 0 {
        assert bs[k] == rest[k - 1];
      }
    }
  }

  /** The full-backend answer is consistent, and its map's keys are exactly the requested files
      having documents in the push: requested files with no document in the push are absent. */
  lemma AggregateCoverageKeys(shards: seq<seq<CoverageDoc>>, files: seq<string>, push: int)
    ensures BucketsConform(AggregateBuckets(shards, files, push), shards, files, push)
    ensures CoverageInPush(AggregateBuckets(shards, files, push)).Keys
            == set f | f in files && HasDocs(shards, f, push)
  {
    AggregateBucketsKeys(shards, files, push);
    AggregateBucketsDistinct(shards, files, push);
  }

  /** Two shards whose documents cover {1, 2, 5} and {2, 5, 9} reduce to [1, 2, 5, 9]. */
  lemma TwoShardUnion(doc1: seq<int>, doc2: seq<int>)
    requires doc1 == [1, 2, 5] && doc2 == [2, 5, 9]
    ensures ScriptedMetric([[doc1], [doc2]]) == [1, 2, 5, 9]
  {
    var r := ScriptedMetric([[doc1], [doc2]]);
    CoveredOnTwoShards(doc1, doc2);
    LiteralUnion(doc1, doc2);
    AscendingUnique(r, [1, 2, 5, 9]);
  }

  lemma LiteralUnion(doc1: seq<int>, doc2: seq<int>)
    requires doc1 == [1, 2, 5] && doc2 == [2, 5, 9]
    ensures forall x :: x in doc1 || x in doc2 <==> x in [1, 2, 5, 9]
  {
  }

  /** With one document per shard, a line is covered when either document covers it. */
  lemma CoveredOnTwoShards(doc1: seq<int>, doc2: seq<int>)
    ensures forall x :: CoveredOnShards(x, [[doc1], [doc2]]) <==> x in doc1 || x in doc2
  {
    var shards := [[doc1], [doc2]];
    forall x
      ensures CoveredOnShards(x, shards) <==> x in doc1 || x in doc2
    {
      if x in doc1 {
        assert x in shards[0][0];
      }
      if x in doc2 {
        assert x in shards[1][0];
      }
    }
  }

  /** A requested file whose documents in the push cover no line still gets a bucket, so the
      dictionary maps it to [] rather than leaving it out. */
  lemma UncoveredFileMapsToEmpty(shards: seq<seq<CoverageDoc>>, files: seq<string>, push: int, f: string)
    requires f in files && HasDocs(shards, f, push)
    requires forall i, j :: 0 <= i < |shards| && 0 <= j < |shards[i]| && InBucket(shards[i][j], f, push)
               ==> shards[i][j].covered == []
    ensures f in CoverageInPush(AggregateBuckets(shards, files, push))
    ensures CoverageInPush(AggregateBuckets(shards, files, push))[f] == []
  {
    var buckets := AggregateBuckets(shards, files, push);
    AggregateCoverageKeys(shards, files, push);
    CoverageInPushSpec(buckets, shards, files, push);
    var m := CoverageInPush(buckets);
    assert f in m;
    forall x ensures x !in m[f] {
      assert !BucketCovers(x, shards, f, push);
    }
    EmptyIffNoElements(m[f]);
  }
}

=== FILE: moves.dfy ===
/** `changes_on_files`: grouping the moves of the returned changesets by requested filename. */
module Moves {
  import opened Paths
  import opened Seqs
  import opened Commits
  import opened CommitQuery

  /** The option the function returns: `None` when the search raised `NoResults`. */
  datatype Option<T> = None | Some(value: T)

  /** A move concerns `filename` when its new or its old name ends with it. */
  predicate Touches(m: Move, filename: string)
  {
    EndsWith(m.newName, filename) || EndsWith(m.oldName, filename)
  }

  /** The moves that concern `filename`, in their original order, each kept once. */
  function Touching(filename: string, ms: seq<Move>): (r: seq<Move>)
    ensures forall m :: m in r <==> m in ms && Touches(m, filename)
    ensures forall m :: multiset(r)[m] == if Touches(m, filename) then multiset(ms)[m] else 0
  {
    if |ms| == 0 then []
    else
      var init := ms[..|ms| - 1];
      var last := ms[|ms| - 1];
      assert ms == init + [last];
      Touching(filename, init) + (if Touches(last, filename) then [last] else [])
  }

  /** The `changes` of each move, in order. */
  function ChangesOf(ms: seq<Move>): seq<Changes>
  {
    seq(|ms|, i requires 0 <= i < |ms| => ms[i].changes)
  }

  /** Every move of every hit, hit by hit and in each hit's own order. */
  function AllMoves(hits: seq<Hit>): seq<Move>
  {
    Flatten(seq(|hits|, i requires 0 <= i < |hits| => hits[i].moves))
  }

  /** The inner list of the comprehension for one filename: for each hit in turn, the
      `changes` of its moves that concern the filename. */
  function MatchingChanges(filename: string, hits: seq<Hit>): seq<Changes>
  {
    if |hits| == 0 then []
    else ChangesOf(Touching(filename, hits[0].moves)) + MatchingChanges(filename, hits[1..])
  }

  /** The dictionary comprehension over the requested filenames. */
  function GroupByFile(files: seq<string>, hits: seq<Hit>): (g: map<string, seq<Changes>>)
    ensures g.Keys == Elems(files)
  {
    map f | f in files :: MatchingChanges(f, hits)
  }

  /** `changes_on_files` once the query has been answered. */
  function ChangesOnFiles(files: seq<string>, response: CommitResponse): (r: Option<map<string, seq<Changes>>>)
    ensures r.None? <==> response.NoResults?
    ensures r.Some? ==> r.value.Keys == Elems(files)
  {
    match response
    case NoResults => None
    case Hits(hits) => Some(GroupByFile(files, hits))
  }

  /** Filtering distributes over concatenation: the moves of earlier hits come first. */
  lemma {:induction false} TouchingConcat(filename: string, a: seq<Move>, b: seq<Move>)
    ensures Touching(filename, a + b) == Touching(filename, a) + Touching(filename, b)
  {
    if |b| > 0 {
      var b' := b[..|b| - 1];
      assert a + b == (a + b') + [b[|b| - 1]];
      assert (a + b)[..|a + b| - 1] == a + b';
      TouchingConcat(filename, a, b');
    } else {
      assert a + b == a;
    }
  }

  /** Projecting `changes` distributes over concatenation. */
  lemma ChangesOfConcat(a: seq<Move>, b: seq<Move>)
    ensures ChangesOf(a + b) == ChangesOf(a) + ChangesOf(b)
  {
  }

  /** The nested comprehension equals one filter over the flattened moves: hit order, then move
      order within each hit, with nothing reordered. */
  lemma {:induction false} MatchingIsFlatFilter(filename: string, hits: seq<Hit>)
    ensures MatchingChanges(filename, hits) == ChangesOf(Touching(filename, AllMoves(hits)))
  {
    if |hits| > 0 {
      var inner := seq(|hits|, i requires 0 <= i < |hits| => hits[i].moves);
      var rest := seq(|hits[1..]|, i requires 0 <= i < |hits[1..]| => hits[1..][i].moves);
      assert inner[1..] == rest;
      assert AllMoves(hits) == hits[0].moves + AllMoves(hits[1..]);
      MatchingIsFlatFilter(filename, hits[1..]);
      TouchingConcat(filename, hits[0].moves, AllMoves(hits[1..]));
      ChangesOfConcat(Touching(filename, hits[0].moves), Touching(filename, AllMoves(hits[1..])));
    }
  }

  /** Concatenating responses concatenates each filename's entries. */
  lemma {:induction false} MatchingConcat(filename: string, h1: seq<Hit>, h2: seq<Hit>)
    ensures MatchingChanges(filename, h1 + h2) == MatchingChanges(filename, h1) + MatchingChanges(filename, h2)
  {
    if |h1| > 0 {
      assert (h1 + h2)[1..] == h1[1..] + h2;
      MatchingConcat(filename, h1[1..], h2);
    } else {
      assert h1 + h2 == h2;
    }
  }

  /** The positions of the moves that concern `filename`, ascending. */
  function Positions(filename: string, ms: seq<Move>): (p: seq<int>)
    ensures forall k :: 0 <= k < |p| ==> 0 <= p[k] < |ms|
    ensures forall k, l :: 0 <= k < l < |p| ==> p[k] < p[l]
    ensures forall i :: 0 <= i < |ms| ==> (i in p <==> Touches(ms[i], filename))
  {
    if |ms| == 0 then []
    else
      var p := Positions(filename, ms[..|ms| - 1]);
      p + (if Touches(ms[|ms| - 1], filename) then [|ms| - 1] else [])
  }

  /** The filter is an order-preserving selection: its k-th entry is the move at the k-th
      ascending position whose move concerns `filename`, and no other move is taken. */
  lemma {:induction false} TouchingSelectsInOrder(filename: string, ms: seq<Move>)
    ensures |Touching(filename, ms)| == |Positions(filename, ms)|
    ensures forall k :: 0 <= k < |Positions(filename, ms)| ==>
              Touching(filename, ms)[k] == ms[Positions(filename, ms)[k]]
  {
    if |ms| > 0 {
      var init := ms[..|ms| - 1];
      TouchingSelectsInOrder(filename, init);
      SelectExtend(ms, Touching(filename, init), Positions(filename, init), Touches(ms[|ms| - 1], filename));
    }
  }

  /** One step of the selection: extending the moves by one, and possibly selecting it. */
  lemma SelectExtend(ms: seq<Move>, t: seq<Move>, p: seq<int>, take: bool)
    requires |ms| > 0 && |t| == |p|
    requires forall k :: 0 <= k < |p| ==> 0 <= p[k] < |ms| - 1 && t[k] == ms[..|ms| - 1][p[k]]
    ensures var t' := t + (if take then [ms[|ms| - 1]] else []);
            var p' := p + (if take then [|ms| - 1] else []);
            |t'| == |p'| && forall k :: 0 <= k < |p'| ==> t'[k] == ms[p'[k]]
  {
  }

  /** Each requested filename's entry lists exactly the changes of the moves, across all hits,
      whose new or old name ends with it, in order; an entry with no such move is empty. */
  lemma GroupedEntries(files: seq<string>, hits: seq<Hit>, f: string)
    requires f in files
    ensures f in GroupByFile(files, hits)
    ensures GroupByFile(files, hits)[f] == ChangesOf(Touching(f, AllMoves(hits)))
    ensures (forall m :: m in AllMoves(hits) ==> !Touches(m, f)) ==> GroupByFile(files, hits)[f] == []
  {
    MatchingIsFlatFilter(f, hits);
    if forall m :: m in AllMoves(hits) ==> !Touches(m, f) {
      var t := Touching(f, AllMoves(hits));
      assert forall m :: m !in t;
      EmptyIffNoElements(t);
    }
  }

  /** A move is among all the moves exactly when it is the move at some position of some hit. */
  lemma InAllMoves(m: Move, hits: seq<Hit>)
    ensures m in AllMoves(hits) <==>
            exists i, j :: 0 <= i < |hits| && 0 <= j < |hits[i].moves| && hits[i].moves[j] == m
  {
    var inner := seq(|hits|, i requires 0 <= i < |hits| => hits[i].moves);
    InFlatten(m, inner);
    if m in AllMoves(hits) {
      var i :| 0 <= i < |inner| && m in inner[i];
      var j :| 0 <= j < |hits[i].moves| && hits[i].moves[j] == m;
    }
    if exists i, j :: 0 <= i < |hits| && 0 <= j < |hits[i].moves| && hits[i].moves[j] == m {
      var i, j :| 0 <= i < |hits| && 0 <= j < |hits[i].moves| && hits[i].moves[j] == m;
      assert m in inner[i];
    }
  }

  /** A change list is among the projected changes exactly when some move carries it. */
  lemma InChangesOf(c: Changes, ms: seq<Move>)
    ensures c in ChangesOf(ms) <==> exists m :: m in ms && m.changes == c
  {
    if c in ChangesOf(ms) {
      var k :| 0 <= k < |ms| && ChangesOf(ms)[k] == c;
      assert ms[k] in ms;
    }
    if exists m :: m in ms && m.changes == c {
      var m :| m in ms && m.changes == c;
      var k :| 0 <= k < |ms| && ms[k] == m;
      assert ChangesOf(ms)[k] == c;
    }
  }

  /** A change list appears under `f` exactly when some move of some hit concerns `f` and carries it. */
  lemma GroupedMembership(files: seq<string>, hits: seq<Hit>, f: string, c: Changes)
    requires f in files
    ensures c in GroupByFile(files, hits)[f] <==>
            exists i, j :: 0 <= i < |hits| && 0 <= j < |hits[i].moves|
                           && Touches(hits[i].moves[j], f) && hits[i].moves[j].changes == c
  {
    GroupedEntries(files, hits, f);
    var t := Touching(f, AllMoves(hits));
    InChangesOf(c, t);
    if c in GroupByFile(files, hits)[f] {
      var m :| m in t && m.changes == c;
      InAllMoves(m, hits);
    }
    if exists i, j :: 0 <= i < |hits| && 0 <= j < |hits[i].moves|
                      && Touches(hits[i].moves[j], f) && hits[i].moves[j].changes == c {
      var i, j :| 0 <= i < |hits| && 0 <= j < |hits[i].moves|
                  && Touches(hits[i].moves[j], f) && hits[i].moves[j].changes == c;
      InAllMoves(hits[i].moves[j], hits);
      assert hits[i].moves[j] in t;
    }
  }

  /** Only admitted changesets contribute: given a backend answer consistent with the query,
      every grouped change list comes from a move, concerning its filename, of a changeset later
      in the same push and on the same branch. */
  lemma GroupedChangesAdmitted(corpus: seq<Commit>, files: seq<string>, push: int,
                               revisionIndex: int, branchName: string, response: CommitResponse)
    requires Conforms(response, corpus, CommitsAbove(files, push, revisionIndex, branchName))
    ensures var r := ChangesOnFiles(files, response);
            r.Some? ==>
              forall f, c :: f in r.value && c in r.value[f] ==>
                exists cm :: cm in corpus && Admitted(cm, push, revisionIndex, branchName)
                  && exists m :: m in cm.moves && Touches(m, f) && m.changes == c
  {
    var r := ChangesOnFiles(files, response);
    if r.Some? {
      var q := CommitsAbove(files, push, revisionIndex, branchName);
      var hits := response.hits;
      forall f, c | f in r.value && c in r.value[f]
        ensures exists cm :: cm in corpus && Admitted(cm, push, revisionIndex, branchName)
                  && exists m :: m in cm.moves && Touches(m, f) && m.changes == c
      {
        GroupedMembership(files, hits, f, c);
        var i, j :| 0 <= i < |hits| && 0 <= j < |hits[i].moves|
                    && Touches(hits[i].moves[j], f) && hits[i].moves[j].changes == c;
        assert hits[i] in hits;
        var cm :| cm in corpus && Matches(cm, q) && Source(cm) == hits[i];
        QueryAdmitsExactly(cm, files, push, revisionIndex, branchName);
        assert hits[i].moves[j] in cm.moves;
      }
    }
  }

  /** The filter on a single move keeps it exactly when it matches. */
  lemma TouchingSingleton(filename: string, m: Move)
    ensures Touching(filename, [m]) == if Touches(m, filename) then [m] else []
  {
    assert [m][..0] == [];
  }

  /** The comprehension over two hits, unfolded. */
  lemma MatchingTwoHits(filename: string, h1: Hit, h2: Hit)
    ensures MatchingChanges(filename, [h1, h2])
            == ChangesOf(Touching(filename, h1.moves)) + ChangesOf(Touching(filename, h2.moves))
  {
    assert [h1, h2][1..] == [h2];
    assert [h2][1..] == [];
    assert MatchingChanges(filename, [h2]) == ChangesOf(Touching(filename, h2.moves)) + [];
  }

  /** Suffix matching is loose: moves to two different paths ending with the same
      name, say "src/a.py" and "other/a.py", both land under "a.py", in hit order. */
  lemma SuffixCollectsBoth(name: string, dir1: string, dir2: string, old1: string, old2: string,
                           c1: Changes, c2: Changes, d1: string, d2: string)
    ensures GroupByFile([name], [Hit([Move(old1, dir1 + name, c1)], d1),
                                 Hit([Move(old2, dir2 + name, c2)], d2)])[name]
            == [c1, c2]
  {
    var m1 := Move(old1, dir1 + name, c1);
    var m2 := Move(old2, dir2 + name, c2);
    EndsWithAppend(dir1, name);
    EndsWithAppend(dir2, name);
    TouchingSingleton(name, m1);
    TouchingSingleton(name, m2);
    var hits := [Hit([m1], d1), Hit([m2], d2)];
    MatchingTwoHits(name, hits[0], hits[1]);
    assert MatchingChanges(name, hits) == ChangesOf([m1]) + ChangesOf([m2]);
    assert ChangesOf([m1]) + ChangesOf([m2]) == [c1, c2];
    assert GroupByFile([name], hits)[name] == MatchingChanges(name, hits);
  }

  /** When every move concerns the filename, the filter keeps all moves. */
  lemma {:induction false} TouchingAll(filename: string, ms: seq<Move>)
    requires forall i :: 0 <= i < |ms| ==> Touches(ms[i], filename)
    ensures Touching(filename, ms) == ms
  {
    if |ms| > 0 {
      var init := ms[..|ms| - 1];
      var last := ms[|ms| - 1];
      forall i | 0 <= i < |init| ensures Touches(init[i], filename) {
        assert init[i] == ms[i];
      }
      TouchingAll(filename, init);
      assert Touches(last, filename);
      assert Touching(filename, ms) == Touching(filename, init) + [last];
      SplitLast(ms);
    }
  }

  /** An empty requested filename collects the changes of every move of every hit, in order. */
  lemma EmptyFilenameCollectsAll(files: seq<string>, hits: seq<Hit>)
    requires "" in files
    ensures GroupByFile(files, hits)[""] == ChangesOf(AllMoves(hits))
  {
    GroupedEntries(files, hits, "");
    var ms := AllMoves(hits);
    forall i | 0 <= i < |ms| ensures Touches(ms[i], "") {
      EverythingEndsWithEmpty(ms[i].newName);
    }
    TouchingAll("", ms);
  }
}

=== FILE: paths.dfy ===
/** Path strings and the suffix test the move grouping relies on. */
module Paths {

  /** Python's `str.endswith`: `suffix` is a (possibly empty) trailing slice of `s`. */
  predicate EndsWith(s: string, suffix: string)
  {
    |suffix| <= |s| && s[|s| - |suffix|..] == suffix
  }

  /** Any path ends with itself prefixed by a directory, e.g. "src/a.py" ends with "a.py". */
  lemma EndsWithAppend(prefix: string, name: string)
    ensures EndsWith(prefix + name, name)
  {
    assert (prefix + name)[|prefix|..] == name;
  }

  /** `s` ends with `t` exactly when `s` is `t` with something in front of it. */
  lemma EndsWithIffPrefixed(s: string, t: string)
    ensures EndsWith(s, t) <==> exists p :: p + t == s
  {
    if EndsWith(s, t) {
      var p := s[..|s| - |t|];
      assert p + t == s;
    }
    if exists p :: p + t == s {
      var p :| p + t == s;
      EndsWithAppend(p, t);
    }
  }

  /** Suffix matching is transitive: a move on "x/src/a.py" that matches "src/a.py" also matches "a.py". */
  lemma EndsWithTransitive(a: string, b: string, c: string)
    requires EndsWith(a, b) && EndsWith(b, c)
    ensures EndsWith(a, c)
  {
    var pb := a[..|a| - |b|];
    var pc := b[..|b| - |c|];
    assert a == pb + b;
    assert b == pc + c;
    assert a == (pb + pc) + c;
    EndsWithAppend(pb + pc, c);
  }

  /** Every path ends with the empty filename. */
  lemma EverythingEndsWithEmpty(s: string)
    ensures EndsWith(s, "")
  {
    assert s[|s|..] == "";
  }
}

=== FILE: seqs.dfy ===
/** Sequence operations used by the aggregation scripts and the grouping comprehension. */
module Seqs {

  /** The elements of a sequence, as a set. */
  function Elems<T>(s: seq<T>): set<T>
  {
    set x | x in s
  }

  /** No element occurs twice. */
  predicate NoDuplicates<T(==)>(s: seq<T>)
  {
    forall i, j :: 0 <= i < j < |s| ==> s[i] != s[j]
  }

  /** Non-decreasing order. */
  predicate Sorted(s: seq<int>)
  {
    forall i, j :: 0 <= i < j < |s| ==> s[i] <= s[j]
  }

  /** Sorted with no duplicates. */
  predicate StrictlyAscending(s: seq<int>)
  {
    forall i, j :: 0 <= i < j < |s| ==> s[i] < s[j]
  }

  /** Concatenation of the inner sequences, in order (Java's `flatMap(Collection::stream)`,
      `addAll` repeated over a list of lists). */
  function Flatten<T>(xss: seq<seq<T>>): (r: seq<T>)
  {
    if |xss| == 0 then [] else xss[0] + Flatten(xss[1..])
  }

  /** Flattening distributes over concatenation. */
  lemma {:induction false} FlattenConcat<T>(a: seq<seq<T>>, b: seq<seq<T>>)
    ensures Flatten(a + b) == Flatten(a) + Flatten(b)
  {
    if |a| == 0 {
      assert a + b == b;
    } else {
      assert (a + b)[1..] == a[1..] + b;
      FlattenConcat(a[1..], b);
    }
  }

  /** An element is in the flattening exactly when it is in one of the inner sequences. */
  lemma {:induction false} InFlatten<T>(x: T, xss: seq<seq<T>>)
    ensures x in Flatten(xss) <==> exists i :: 0 <= i < |xss| && x in xss[i]
  {
    if |xss| > 0 {
      InFlatten(x, xss[1..]);
      if x in Flatten(xss[1..]) {
        var i :| 0 <= i < |xss[1..]| && x in xss[1..][i];
        assert x in xss[i + 1];
      }
      if exists i :: 0 <= i < |xss| && x in xss[i] {
        var i :| 0 <= i < |xss| && x in xss[i];
        if i > 0 {
          assert x in xss[1..][i - 1];
        }
      }
    }
  }

  /** Java's `stream().distinct()`: keeps the first occurrence of every element, in encounter order. */
  function Distinct<T(==,!new)>(s: seq<T>): (r: seq<T>)
    ensures forall x :: x in r <==> x in s
    ensures NoDuplicates(r)
  {
    if |s| == 0 then []
    else
      var d := Distinct(s[..|s| - 1]);
      assert forall x :: x in s <==> x in s[..|s| - 1] || x == s[|s| - 1];
      if s[|s| - 1] in d then d else d + [s[|s| - 1]]
  }

  /** Inserts `x` into a sorted sequence, before the first element not smaller than it. */
  function Insert(x: int, s: seq<int>): (r: seq<int>)
    requires Sorted(s)
    ensures Sorted(r)
    ensures forall y :: y in r <==> y == x || y in s
    ensures multiset(r) == multiset(s) + multiset{x}
  {
    if |s| == 0 then [x]
    else if x <= s[0] then [x] + s
    else
      assert s == [s[0]] + s[1..];
      var t := Insert(x, s[1..]);
      var r := [s[0]] + t;
      assert forall i :: 0 < i < |r| ==> r[i] == t[i - 1];
      assert forall i :: 0 <= i < |t| ==> s[0] <= t[i] by {
        forall i | 0 <= i < |t| ensures s[0] <= t[i] {
          assert t[i] in t;
        }
      }
      r
  }

  /** Java's `stream().sorted()` on integers: an ascending permutation of its input. */
  function Sort(s: seq<int>): (r: seq<int>)
    ensures Sorted(r)
    ensures multiset(r) == multiset(s)
  {
    if |s| == 0 then []
    else
      assert s == [s[0]] + s[1..];
      Insert(s[0], Sort(s[1..]))
  }

  /** Sorting a duplicate-free sequence gives a strictly ascending one with the same elements. */
  lemma SortDistinctAscending(s: seq<int>)
    requires NoDuplicates(s)
    ensures StrictlyAscending(Sort(s))
    ensures forall x :: x in Sort(s) <==> x in s
  {
    SortedNoDuplicates(Sort(s), s);
    SameElements(Sort(s), s);
  }

  /** A sorted permutation of a duplicate-free sequence is strictly ascending. */
  lemma SortedNoDuplicates(r: seq<int>, s: seq<int>)
    requires NoDuplicates(s) && Sorted(r) && multiset(r) == multiset(s)
    ensures StrictlyAscending(r)
  {
    forall i, j | 0 <= i < j < |r|
      ensures r[i] < r[j]
    {
      MultiplicityOne(s, r[i]);
      SingleOccurrence(r, i, j);
    }
  }

  /** Permutations hold the same elements. */
  lemma SameElements<T>(r: seq<T>, s: seq<T>)
    requires multiset(r) == multiset(s)
    ensures forall x :: x in r <==> x in s
  {
    forall x
      ensures x in r <==> x in s
    {
      assert x in r <==> x in multiset(r);
      assert x in s <==> x in multiset(s);
    }
  }

  /** In a duplicate-free sequence every element occurs at most once. */
  lemma {:induction false} MultiplicityOne<T>(s: seq<T>, x: T)
    requires NoDuplicates(s)
    ensures multiset(s)[x] <= 1
  {
    if |s| > 0 {
      assert s == [s[0]] + s[1..];
      MultiplicityOne(s[1..], x);
      assert x == s[0] ==> x !in s[1..];
    }
  }

  /** An element occurring at most once cannot sit at two positions. */
  lemma SingleOccurrence<T>(r: seq<T>, i: int, j: int)
    requires 0 <= i < j < |r|
    requires multiset(r)[r[i]] <= 1
    ensures r[i] != r[j]
  {
    assert r == r[..j] + r[j..];
    assert multiset(r)[r[i]] == multiset(r[..j])[r[i]] + multiset(r[j..])[r[i]];
    assert r[i] in r[..j];
    assert r[j] == r[j..][0];
  }

  /** A sequence is empty exactly when nothing is in it. */
  lemma EmptyIffNoElements<T>(s: seq<T>)
    ensures |s| == 0 <==> forall x :: x !in s
  {
    if |s| > 0 {
      assert s[0] in s;
    }
  }

  /** A non-empty sequence is its front followed by its last element. */
  lemma SplitLast<T>(s: seq<T>)
    requires |s| > 0
    ensures s[..|s| - 1] + [s[|s| - 1]] == s
  {
  }

  /** In a strictly ascending sequence the head is below every other element. */
  lemma HeadBelowRest(s: seq<int>, x: int)
    requires StrictlyAscending(s) && x in s
    ensures s[0] <= x
    ensures x != s[0] ==> x in s[1..] && s[0] < x
  {
    var k :| 0 <= k < |s| && s[k] == x;
    if k > 0 {
      assert s[1..][k - 1] == x;
    }
  }

  /** Two strictly ascending sequences holding the same elements are the same sequence:
      a sorted, duplicate-free list is determined by its set. */
  lemma {:induction false} AscendingUnique(a: seq<int>, b: seq<int>)
    requires StrictlyAscending(a) && StrictlyAscending(b)
    requires forall x :: x in a <==> x in b
    ensures a == b
  {
    EmptyIffNoElements(a);
    EmptyIffNoElements(b);
    if |a| == 0 {
      forall x
        ensures x !in b
      {
        assert x !in a;
      }
    } else {
      assert a[0] in a;
      assert b[0] in b;
      HeadBelowRest(a, b[0]);
      HeadBelowRest(b, a[0]);
      forall x
        ensures x in a[1..] <==> x in b[1..]
      {
        if x in a[1..] {
          assert x in a;
          HeadBelowRest(a, x);
          HeadBelowRest(b, x);
        }
        if x in b[1..] {
          assert x in b;
          HeadBelowRest(b, x);
          HeadBelowRest(a, x);
        }
      }
      AscendingUnique(a[1..], b[1..]);
      assert a == [a[0]] + a[1..];
      assert b == [b[0]] + b[1..];
    }
  }
}
